=== FILE: README.md ===
# Web configuration update of a mail-in-a-box host, in Dafny

This project models `management/web_update.py`, the part of the mail box's
management daemon that decides which hostnames get a web server block and
writes the nginx configuration for them:

- **Domain selection** (`get_web_domains`): the primary hostname plus every
  mail domain, minus each domain whose custom DNS entry sends it to another
  machine; the result is ordered by `sort_domains`.
- **SSL files** (`get_domain_ssl_files`): the private key, certificate and
  signing-request paths for a domain, with the primary hostname pinned to
  the set-up files and other domains reusing the primary certificate when it
  covers them and they have no key of their own.
- **Self-signed certificates** (`ensure_ssl_certificate_exists`): nothing,
  or `openssl req` followed by `openssl x509`, stopping at a failure.
- **Rendering** (`get_web_root`, `make_domain_config`): web-root fallback,
  four placeholder substitutions (`str.replace` semantics), and insertion of
  a `proxy_pass` location after the first `# ADDITIONAL DIRECTIVES HERE`
  line when the overlay asks for one.
- **The update** (`do_web_update`): preamble plus one block per domain in
  selection order; write and reload only when the text differs from the
  installed file.

Files and modules: `wrappers.dfy` (Option, Result), `strings.dfy`
(`str.replace`, `str.split`/`join`, `re.split` with a captured marker),
`paths.dfy` (`os.path.join`), `commands.dfy` (command records and the
`check_call` runner), `environment.dfy` (configuration, collaborators,
errors), `web_domains.dfy`, `ssl.dfy`, `domain_config.dfy`, `text_mode.dfy` (reading a file in text
mode), `web_update.dfy`.

The file system is a set of existing paths, threaded through the run: a
command that exits zero creates its `-out` file. The installed nginx
configuration is an optional string with a write counter, and every started
process is appended to a command log. The installed file is compared after
reading it in text mode, where universal newlines turn `\r\n` and a lone
`\r` into `\n`; so a text holding a carriage return never compares equal to
what was written, and is written again on every run. Collaborators that are not in this
file (`safe_domain_name`, `check_certificate`, `sort_domains`, process exit
status) are fields of an `Oracles` record of total functions.

Three consequences of the code that are easy to miss:
- A domain whose DNS entry is a mapping with `A` and `AAAA` each absent or
  "local" is kept, and so is one whose entry is neither a string nor a
  mapping.
- The primary hostname is removed like any other domain when its own DNS
  entry points to another machine, so it is not always in the list.
- Domains are configured one after another, and each one sees the
  certificates made for the domains before it.

## Model

| member | source | states |
|---|---|---|
| WebDomains.GetWebDomains | management/web_update.py:35-39 | when `sort_domains` lists a set once per element and puts the primary hostname first whenever it is in the set: the list holds exactly the selected domains, each once, with the primary hostname first whenever it is selected |
| WebDomains.SelectWebDomains | management/web_update.py:13-33 | a domain is selected iff it is the primary hostname or a mail domain and its DNS entry is absent, "local", a mapping whose A and AAAA are each absent or "local", or some other value; the result never contains anything beyond those candidates; a primary hostname whose entry points away is dropped |
| Ssl.DomainSslFiles | management/web_update.py:112-148 | the primary hostname always gets the shared key, primary certificate and primary CSR, even when a per-domain key exists; for any other domain the key is the per-domain key iff that file exists (else the shared key), the certificate is the primary one iff there is no per-domain key and the coverage check answers "OK" (else the per-domain certificate), and the CSR is the per-domain path |
| Ssl.DomainKeyIsNotShared | management/web_update.py:117-121 | the per-domain key path differs from the shared key path for every directory name, so "uses the per-domain key" is decidable from the path alone |
| Ssl.DomainCertIsNotPrimary | management/web_update.py:125-131 | the per-domain certificate path differs from the primary certificate path for every directory name |
| Ssl.ProvisionCommands | management/web_update.py:154-182 | no command iff the domain is primary, the certificate is the primary certificate, or the certificate file exists; otherwise exactly `openssl req -new -key <key> -out <csr> -subj /C=<country>/ST=/L=/O=/CN=<domain>` then `openssl x509 -req -days 365 -in <csr> -signkey <key> -out <cert>` |
| Ssl.EnsureCertificate | management/web_update.py:150-182 | the commands started are a prefix of the needed ones, and no failure happens iff all of them ran and exited zero; when no certificate is needed nothing runs and no file appears; otherwise the request runs first, a failed request stops everything with no file created, a failed signing leaves only the CSR, and success of both leaves the CSR and the certificate in place |
| Ssl.MadeFilesAreNotKeys | management/web_update.py:119-146 | when directory names are single path components, a domain's CSR and certificate paths are never any domain's private-key path |
| Commands.RunAll | management/web_update.py:170-182 | commands run in order up to and including the first that exits non-zero and none after it; the files afterwards are the old ones plus the outputs of the commands that succeeded |
| DomainConfig.WebRoot | management/web_update.py:105-110 | the domain's own `www/<safe name>` directory when it exists, otherwise `www/<safe "default">` whether or not that exists |
| DomainConfig.SubstituteWithoutPlaceholders | management/web_update.py:84-88 | a template containing none of `$HOSTNAME`, `$ROOT`, `$SSL_KEY`, `$SSL_CERTIFICATE` is rendered unchanged |
| DomainConfig.RenderBlock | management/web_update.py:84-103 | without a proxy entry the block is the template after the four substitutions in order (split and join change nothing); with one, the proxy location is inserted right after the first marker line with the text before and after unchanged, and a missing marker is an error |
| DomainConfig.MakeDomainConfig | management/web_update.py:69-103 | the commands started are a prefix of the ones the certificate decision needs; the step succeeds iff all of them ran and exited zero and the block renders, and then the result is the block rendered from the chosen root, key and certificate with a certificate in place; it fails with the missing marker iff the commands all succeeded and the rendering failed; a command failure names the last command started, which exited non-zero; the commands started and the files left are exactly those of the certificate step, so a failed request stops the step before signing; files only grow, and only by the domain's own CSR and certificate; nginx is never reloaded |
| DomainConfig.MadeFilesAreNotWebRoots | management/web_update.py:105-146 | when the web root's name is a single path component, no CSR or certificate path under `ssl` is a web root |
| Strings.IndexOf | management/web_update.py:91 | the index returned is an occurrence of the marker with none before it; no index means no occurrence |
| Strings.SplitKeepConcat | management/web_update.py:91-101 | joining the pieces of `re.split` with a captured marker gives back the text, so split-then-join is the identity |
| Strings.SplitKeepShape | management/web_update.py:91-98 | there is a second piece iff the marker occurs; it is then the marker itself, the first piece is the text before the first occurrence, and the remaining pieces join to the text after it |
| Strings.InsertAfter | management/web_update.py:98-101 | appending to the marker piece and joining inserts the addition right after that occurrence of the marker, with the text before and after unchanged |
| Strings.ReplaceIsSplitJoin | management/web_update.py:85-88 | `s.replace(p, r)` equals `r.join(s.split(p))` for a non-empty pattern |
| Strings.ReplaceAbsent | management/web_update.py:85-88 | replacing a pattern that does not occur leaves the text unchanged |
| Strings.SplitJoinRoundTrip | management/web_update.py:85-88 | joining the pieces of `s.split(p)` with `p` gives back `s` |
| WebUpdate.DomainRendererIsOrderly | management/web_update.py:69-103 | configuring a domain, from any files, only adds files and never reloads nginx |
| WebUpdate.BuildBlocks | management/web_update.py:45-48 | for a per-domain configuration that only adds files and never reloads: the first domain starts from the initial files and each next one from the files the previous one left; the domains before the first failure are rendered, in list order, to the blocks; the error, if any, is the failure of the first domain that failed, and nothing after it is configured; the commands are those of the configured domains in order, and the final files are those the last one left; without an error there is one block per domain; no reload is started |
| WebUpdate.Apply | management/web_update.py:50-67 | "" is returned iff the installed file exists and reads back, in text mode, as the text, and then nothing changes; a text with a carriage return is therefore always written; otherwise the text is written once and exactly one reload is appended to the log, with nothing else changed, and "web updated\n" is returned iff the reload succeeds |
| WebUpdate.ApplyTwice | management/web_update.py:50-55 | applying the same text twice: the second application is a no-op returning "" iff the text holds no carriage return |
| WebUpdate.ReadsAsHasNoCarriageReturn | management/web_update.py:52-55 | an installed file can only compare equal to a text without carriage returns |
| TextMode.ReadBackHasNoCarriageReturn | management/web_update.py:53-54 | reading in text mode never returns a carriage return |
| TextMode.ReadBackIdentity | management/web_update.py:53-54 | a text without carriage returns reads back unchanged |
| TextMode.RoundTrip | management/web_update.py:53-59 | a written text reads back as itself iff it holds no carriage return |
| WebUpdate.DoWebUpdate | management/web_update.py:41-67 | the written text is the preamble followed by the domain blocks; the log gains the openssl commands of the rendering and then the reload, if any; a rendering error leaves the installed file, write count and reload count alone; a text the installed file reads back as returns "" with no write and no reload; any other text is written once and reloaded once, even when the reload then fails |
| WebUpdate.QuietRebuild | management/web_update.py:47-48 | for any per-domain configuration that renders each domain again to the same result without commands once its files exist: rendering the list again, with every certificate the first rendering made now present, starts no command and gives the same blocks |
| WebUpdate.UndisturbedIsQuiet | management/web_update.py:69-103 | when the existence answers a domain's configuration consults do not change, configuring it again from the later files starts no command and gives the same block |
| WebUpdate.BuildKeeps | management/web_update.py:47-48 | when no per-domain step ever creates a file of a given set, the whole rendering creates none either |
| WebUpdate.DomainRendererKeeps | management/web_update.py:69-103 | when `safe_domain_name` gives single path components, configuring any domain creates none of the web roots and private keys the listed domains consult |
| WebUpdate.UpdateLeavesAnswers | management/web_update.py:45-48 | when `safe_domain_name` gives single path components, the rendering leaves the existence of every web root and private key a listed domain consults as it was |
| WebUpdate.SecondUpdateIsNoOp | management/web_update.py:41-67 | when `safe_domain_name` gives single path components: a second update with unchanged inputs after a fully rendered first one returns "" and changes nothing iff the configuration text holds no carriage return, including after a failed reload, which is therefore not retried |

## Left out

- Reading `conf/nginx-top.conf` and `conf/nginx.conf`: their contents are inputs; a missing or unreadable file (an I/O error) is not modelled. For `www/custom.yaml` a missing file is modelled (the overlay is `None`, and no proxy is added); an unreadable one is not.
- YAML parsing: the overlay is a map from domain to an entry with an optional proxy string; a present `proxy` value that is not a string is represented by its `%s` text (`null` as "None", a number as its digits). A document that is not a mapping is not modelled: an empty file, for example, loads as `None`, and `domain in yaml` then raises. An entry that is not a mapping, where `"proxy" in entry` would test a substring or raise, is not modelled either.
- `os.makedirs` for the certificate directory is not modelled: with single-component directory names, the directory `ssl/<safe name>` it creates is none of the web roots, keys and certificates whose existence the run tests.
- A command that exits non-zero is modelled as creating no file; whatever openssl leaves behind on failure is not known.
- Apply: the locale encoding of the file read and write is not modelled; texts are sequences of characters, and a text the encoding cannot represent (an encoding error) is not modelled.
- The atomicity of the file write, concurrent invocations and the real process execution are not modelled; commands are records in a log.
- `safe_domain_name`, `check_certificate`, `sort_domains` (utils and whats_next are not part of this model), `get_mail_domains` and `get_custom_dns_config` are inputs or uninterpreted functions; the coverage check and process exit status are assumed not to change during a run.
- GetWebDomains: that the primary hostname comes first and that each selected domain is listed once is stated only for a `sort_domains` that behaves so; `sort_domains` (in utils) is not part of this model.
- WebDomains.Override: a non-string `A`/`AAAA` value is represented by a string other than "local", since only its difference from "local" matters.
- Strings.SplitKeep: requires a non-empty marker; the only call uses the fixed marker line.
- SecondUpdateIsNoOp: assumes that `safe_domain_name` never returns a name containing `/`; utils is not part of this model, so this is not proved.

=== FILE: commands.dfy ===
/** The external commands the web update issues, and the sequential runner
    that stops at the first one exiting non-zero (`check_call`). */
module Commands {
  import opened Wrappers

  datatype Command =
    | OpensslReq(key: string, out: string, subject: string)
    | OpensslX509(csr: string, signKey: string, out: string)
    | NginxReload

  /** The argument vector passed to the process. */
  function Argv(c: Command): seq<string> {
    match c
    case OpensslReq(key, out, subject) =>
      ["openssl", "req", "-new", "-key", key, "-out", out, "-subj", subject]
    case OpensslX509(csr, signKey, out) =>
      ["openssl", "x509", "-req", "-days", "365", "-in", csr, "-signkey", signKey, "-out", out]
    case NginxReload =>
      ["/usr/sbin/service", "nginx", "reload"]
  }

  /** The files a command creates when it exits zero. */
  function Outputs(c: Command): set<string> {
    match c
    case OpensslReq(_, out, _) => {out}
    case OpensslX509(_, _, out) => {out}
    case NginxReload => {}
  }

  function Created(cmds: seq<Command>): set<string> {
    if |cmds| == 0 then {} else Outputs(cmds[0]) + Created(cmds[1..])
  }

  /** Outcome of running a command list: the commands actually started, the
      resulting set of existing files, and the command that failed, if any. */
  datatype Exec = Exec(ran: seq<Command>, files: set<string>, failed: Option<Command>)

  /** Every command in `cmds` exits zero. */
  predicate AllOk(cmds: seq<Command>, ok: Command -> bool) {
    |cmds| == 0 || (ok(cmds[0]) && AllOk(cmds[1..], ok))
  }

  /** Runs `cmds` in order; `ok` says whether a command exits zero. The first
      failing command is started but nothing after it is. */
  function RunAll(cmds: seq<Command>, ok: Command -> bool, files: set<string>): (e: Exec)
    ensures e.ran <= cmds
    ensures e.failed.None? <==> e.ran == cmds && AllOk(cmds, ok)
    ensures e.failed.None? ==> e.files == files + Created(cmds)
    ensures e.failed.Some? ==>
      && |e.ran| > 0
      && e.failed.value == e.ran[|e.ran| - 1]
      && !ok(e.failed.value)
      && AllOk(e.ran[..|e.ran| - 1], ok)
      && e.files == files + Created(e.ran[..|e.ran| - 1])
    decreases |cmds|
  {
    if |cmds| == 0 then Exec([], files, None)
    else if !ok(cmds[0]) then
      assert [cmds[0]][..0] == [];
      Exec([cmds[0]], files, Some(cmds[0]))
    else
      var rest := RunAll(cmds[1..], ok, files + Outputs(cmds[0]));
      RunCons(cmds, ok, files, rest);
      Exec([cmds[0]] + rest.ran, rest.files, rest.failed)
  }

  /** The step of `RunAll` after a first command that exits zero. */
  lemma RunCons(cmds: seq<Command>, ok: Command -> bool, files: set<string>, rest: Exec)
    requires |cmds| > 0 && ok(cmds[0])
    requires rest.ran <= cmds[1..]
    requires rest.failed.None? <==> rest.ran == cmds[1..] && AllOk(cmds[1..], ok)
    requires rest.failed.None? ==> rest.files == files + Outputs(cmds[0]) + Created(cmds[1..])
    requires rest.failed.Some? ==>
      && |rest.ran| > 0
      && rest.failed.value == rest.ran[|rest.ran| - 1]
      && AllOk(rest.ran[..|rest.ran| - 1], ok)
      && rest.files == files + Outputs(cmds[0]) + Created(rest.ran[..|rest.ran| - 1])
    ensures var ran := [cmds[0]] + rest.ran;
      && ran <= cmds
      && (rest.failed.None? <==> ran == cmds && AllOk(cmds, ok))
      && (rest.failed.None? ==> rest.files == files + Created(cmds))
      && (rest.failed.Some? ==>
            && AllOk(ran[..|ran| - 1], ok)
            && rest.files == files + Created(ran[..|ran| - 1]))
  {
    var ran := [cmds[0]] + rest.ran;
    assert cmds == [cmds[0]] + cmds[1..];
    assert ran == cmds <==> rest.ran == cmds[1..];
    if rest.failed.Some? {
      var front := rest.ran[..|rest.ran| - 1];
      assert ran[..|ran| - 1] == [cmds[0]] + front;
      assert ([cmds[0]] + front)[1..] == front;
      CreatedCons(cmds[0], front);
    }
  }

  lemma CreatedCons(c: Command, cmds: seq<Command>)
    ensures Created([c] + cmds) == Outputs(c) + Created(cmds)
  {
    assert ([c] + cmds)[1..] == cmds;
  }

  lemma CreatedPair(a: Command, b: Command)
    ensures Created([a, b]) == Outputs(a) + Outputs(b)
  {
    CreatedCons(b, []);
    CreatedCons(a, [b]);
    assert [b] + [] == [b] && [a] + [b] == [a, b];
  }

  predicate NoReloads(log: seq<Command>) {
    forall i :: 0 <= i < |log| ==> !log[i].NginxReload?
  }

  /** Number of reloads in a command log. */
  function Reloads(log: seq<Command>): nat {
    if |log| == 0 then 0 else (if log[0].NginxReload? then 1 else 0) + Reloads(log[1..])
  }

  lemma ReloadsAppend(a: seq<Command>, b: seq<Command>)
    ensures Reloads(a + b) == Reloads(a) + Reloads(b)
  {
    if |a| > 0 {
      assert (a + b)[1..] == a[1..] + b;
    } else {
      assert a + b == b;
    }
  }
}

=== FILE: domain_config.dfy ===
/** One domain's server block: its web root (`get_web_root`) and the
    rendering of the template (`make_domain_config`). */
module DomainConfig {
  import opened Wrappers
  import opened Strings
  import opened Paths
  import opened Commands
  import opened Environment
  import opened Ssl

  /** The line after which per-domain directives are added. */
  const Marker: string := "# ADDITIONAL DIRECTIVES HERE\n"

  /** The directives added for a domain whose requests go to another server. */
  function ProxyBlock(proxy: string): string {
    "\tlocation / {\n\t\tproxy_pass " + proxy + ";\n\t}\n"
  }

  /** One entry of the administrator's `www/custom.yaml`. `proxy` is `None`
      when the entry has no `proxy` key; a present value is represented by
      its `%s` text (`null` as "None", a number as its digits). */
  datatype OverlayEntry = OverlayEntry(proxy: Option<string>)

  /** The overlay file's contents, `None` when the file does not exist. */
  type Overlay = Option<map<string, OverlayEntry>>

  function ProxyFor(overlay: Overlay, domain: string): Option<string> {
    if overlay.Some? && domain in overlay.value then overlay.value[domain].proxy else None
  }

  function WwwPath(env: Env, name: string): string {
    Join(Join(env.storageRoot, "www"), name)
  }

  /** Files under `ssl` are never web roots, whatever directory names are
      used, as long as a web root's name is a single path component. */
  lemma MadeFilesAreNotWebRoots(env: Env, safe: string, name: string)
    requires SingleComponent(name)
    ensures DomainCsrPath(env, safe) != WwwPath(env, name)
    ensures DomainCertPath(env, safe) != WwwPath(env, name)
  {
    var pre := JoinPrefix(env.storageRoot);
    var www := Join(env.storageRoot, "www");
    assert www == pre + "www";
    assert Join(www, name) == www + "/" + name;
    assert Join(www, name)[|pre|] == 'w';
    assert DomainCsrPath(env, safe)[|pre|] == 's';
    assert DomainCertPath(env, safe)[|pre|] == 's';
  }

  /** The first candidate that exists, or the last one when none does. */
  function FirstExisting(candidates: seq<string>, files: set<string>): string
    requires |candidates| > 0
  {
    if |candidates| == 1 || candidates[0] in files then candidates[0]
    else FirstExisting(candidates[1..], files)
  }

  /** `get_web_root`: the domain's own directory under `www` when it exists,
      otherwise the `default` one whether or not that exists. */
  function WebRoot(domain: string, env: Env, o: Oracles, files: set<string>): (r: string)
    ensures WwwPath(env, o.safeName(domain)) in files ==> r == WwwPath(env, o.safeName(domain))
    ensures WwwPath(env, o.safeName(domain)) !in files ==> r == WwwPath(env, o.safeName("default"))
  {
    var candidates := [domain, "default"];
    var paths := [WwwPath(env, o.safeName(candidates[0])), WwwPath(env, o.safeName(candidates[1]))];
    assert paths[1..] == [paths[1]];
    assert FirstExisting(paths[1..], files) == paths[1];
    FirstExisting(paths, files)
  }

  /** The four placeholder substitutions of `make_domain_config`, one after
      another. */
  function Substitute(template: string, hostname: string, root: string, key: string, cert: string): string {
    var t1 := ReplaceAll(template, "$HOSTNAME", hostname);
    var t2 := ReplaceAll(t1, "$ROOT", root);
    var t3 := ReplaceAll(t2, "$SSL_KEY", key);
    ReplaceAll(t3, "$SSL_CERTIFICATE", cert)
  }

  /** A template without placeholders is rendered unchanged. */
  lemma SubstituteWithoutPlaceholders(template: string, hostname: string, root: string, key: string, cert: string)
    requires !Contains(template, "$HOSTNAME") && !Contains(template, "$ROOT")
    requires !Contains(template, "$SSL_KEY") && !Contains(template, "$SSL_CERTIFICATE")
    ensures Substitute(template, hostname, root, key, cert) == template
  {
    ReplaceAbsent(template, "$HOSTNAME", hostname);
    ReplaceAbsent(template, "$ROOT", root);
    ReplaceAbsent(template, "$SSL_KEY", key);
    ReplaceAbsent(template, "$SSL_CERTIFICATE", cert);
  }

  /** `make_domain_config` without the certificate work: substitute, split at the
      marker, add the proxy directives after its first occurrence, join. */
  function RenderBlock(domain: string, template: string, root: string, key: string, cert: string,
                       overlay: Overlay): (r: Result<string, Error>)
    ensures r.Failure? ==> r.error == MarkerMissing
    ensures ProxyFor(overlay, domain).None? ==> r == Success(Substitute(template, domain, root, key, cert))
    ensures ProxyFor(overlay, domain).Some? ==>
      var text := Substitute(template, domain, root, key, cert);
      match IndexOf(text, Marker)
      case None => r == Failure(MarkerMissing)
      case Some(i) =>
        r == Success(text[..i + |Marker|] + ProxyBlock(ProxyFor(overlay, domain).value) + text[i + |Marker|..])
  {
    var text := Substitute(template, domain, root, key, cert);
    var parts := SplitKeep(text, Marker);
    SplitKeepShape(text, Marker);
    match ProxyFor(overlay, domain)
    case None =>
      SplitKeepConcat(text, Marker);
      Success(Concat(parts))
    case Some(proxy) =>
      if |parts| < 2 then Failure(MarkerMissing)
      else
        InsertAfter(text, Marker, ProxyBlock(proxy), parts, IndexOf(text, Marker).value);
        Success(Concat([parts[0], parts[1] + ProxyBlock(proxy)] + parts[2..]))
  }

  /** The effects and outcome of configuring one domain. */
  datatype DomainStep = DomainStep(ran: seq<Command>, files: set<string>, result: Result<string, Error>)

  /** `make_domain_config`: choose root and SSL files, make a certificate if
      needed (stopping at a failed command), then render. The step succeeds
      exactly when every needed command ran and exited zero and the block
      renders; the only files it can add are the domain's own signing
      request and certificate. */
  function MakeDomainConfig(domain: string, env: Env, o: Oracles, template: string, overlay: Overlay,
                            files: set<string>): (s: DomainStep)
    ensures files <= s.files
    ensures s.files <= files + {DomainCsrPath(env, o.safeName(domain)), DomainCertPath(env, o.safeName(domain))}
    ensures NoReloads(s.ran)
    ensures var ssl := DomainSslFiles(domain, env, o, files);
      var cmds := ProvisionCommands(domain, ssl.key, ssl.cert, ssl.csr, env, files);
      var block := RenderBlock(domain, template, WebRoot(domain, env, o, files), ssl.key, ssl.cert, overlay);
      && s.ran <= cmds
      && (s.result.Success? <==> s.ran == cmds && AllOk(cmds, o.succeeds) && block.Success?)
      && (s.result == Failure(MarkerMissing) <==> s.ran == cmds && AllOk(cmds, o.succeeds) && block.Failure?)
      && (s.result.Success? ==> s.result == block && CertificateInPlace(domain, ssl.cert, env, s.files))
    ensures s.result.Failure? && s.result.error.CommandFailed? ==>
      |s.ran| > 0 && s.result.error.command == s.ran[|s.ran| - 1] && !o.succeeds(s.ran[|s.ran| - 1])
    ensures var ssl := DomainSslFiles(domain, env, o, files);
      var e := EnsureCertificate(domain, ssl.key, ssl.cert, ssl.csr, env, o.succeeds, files);
      s.ran == e.ran && s.files == e.files
  {
    var ssl := DomainSslFiles(domain, env, o, files);
    var cmds := ProvisionCommands(domain, ssl.key, ssl.cert, ssl.csr, env, files);
    var e := EnsureCertificate(domain, ssl.key, ssl.cert, ssl.csr, env, o.succeeds, files);
    var block := RenderBlock(domain, template, WebRoot(domain, env, o, files), ssl.key, ssl.cert, overlay);
    MissingCertificateIsOwn(domain, env, o, files);
    FinishOutcome(e, cmds, o.succeeds, block);
    Finish(e, block)
  }

  /** The step's outcome: the failed command, if any, else the rendering. */
  function Finish(e: Exec, block: Result<string, Error>): DomainStep {
    if e.failed.Some? then DomainStep(e.ran, e.files, Failure(CommandFailed(e.failed.value)))
    else DomainStep(e.ran, e.files, block)
  }

  lemma FinishOutcome(e: Exec, cmds: seq<Command>, ok: Command -> bool, block: Result<string, Error>)
    requires e.failed.None? <==> e.ran == cmds && AllOk(cmds, ok)
    requires block.Failure? ==> block.error == MarkerMissing
    ensures var s := Finish(e, block);
      && (s.result.Success? <==> e.ran == cmds && AllOk(cmds, ok) && block.Success?)
      && (s.result == Failure(MarkerMissing) <==> e.ran == cmds && AllOk(cmds, ok) && block.Failure?)
      && (s.result.Success? ==> s.result == block)
  {
  }
}

=== FILE: environment.dfy ===
/** The configuration record, the collaborators the web update consults
    without this model seeing inside them, and the ways a run can fail. */
module Environment {
  import opened Commands

  /** The values read from the box's environment file. */
  datatype Env = Env(primaryHostname: string, storageRoot: string, csrCountry: string)

  /** Collaborators treated as uninterpreted:
      - `safeName`: `safe_domain_name`, turning a domain into a directory name;
      - `certStatus`: `check_certificate(domain, path, None)`, whose answer
        "OK" means the certificate at `path` is valid for `domain`;
      - `sortDomains`: `sort_domains`, listing a set of domains in order;
      - `succeeds`: whether a process started by `check_call` exits zero. */
  datatype Oracles = Oracles(
    safeName: string -> string,
    certStatus: (string, string) -> string,
    sortDomains: set<string> -> seq<string>,
    succeeds: Command -> bool)

  /** `CommandFailed` is the `CalledProcessError` raised by `check_call`;
      `MarkerMissing` is the `IndexError` raised when a proxy entry needs the
      directives marker and the template has none. */
  datatype Error = CommandFailed(command: Command) | MarkerMissing
}

=== FILE: paths.dfy ===
/** POSIX path joining, as `os.path.join` does it. */
module Paths {

  /** A path that `os.path.join` appends rather than restarts from. */
  predicate Relative(b: string) {
    |b| == 0 || b[0] != '/'
  }

  /** `os.path.join(a, b)`: an absolute `b` replaces `a`; otherwise `b` is
      appended, with a `/` between them unless `a` is empty or already ends
      with one. */
  function Join(a: string, b: string): string {
    if !Relative(b) then b
    else if |a| == 0 || a[|a| - 1] == '/' then a + b
    else a + "/" + b
  }

  /** A name with no `/` in it: a single path component. */
  predicate SingleComponent(name: string) {
    forall i :: 0 <= i < |name| ==> name[i] != '/'
  }

  /** What `Join(a, b)` puts before a relative `b`. */
  function JoinPrefix(a: string): string {
    if |a| == 0 || a[|a| - 1] == '/' then a else a + "/"
  }

  lemma JoinRelative(a: string, b: string)
    requires Relative(b)
    ensures Join(a, b) == JoinPrefix(a) + b
  {
  }

  /** Joining a fixed directory with two different relative names gives two
      different paths. */
  lemma JoinInjective(a: string, x: string, y: string)
    requires Relative(x) && Relative(y)
    requires x != y
    ensures Join(a, x) != Join(a, y)
  {
    var pre := JoinPrefix(a);
    JoinRelative(a, x);
    JoinRelative(a, y);
    assert (pre + x)[|pre|..] == x && (pre + y)[|pre|..] == y;
  }

  /** Two paths that name a sub-directory of `pre` and then go on to
      different entries differ, whatever single components name the
      sub-directories. */
  lemma EntriesDiffer(pre: string, x: string, y: string, a: string, b: string)
    requires SingleComponent(x) && SingleComponent(y)
    requires |a| > 1 && |b| > 1 && a[0] == '/' && b[0] == '/' && a[1] != b[1]
    ensures pre + x + a != pre + y + b
  {
    var p := pre + x + a;
    var q := pre + y + b;
    if |x| < |y| {
      assert p[|pre| + |x|] == '/' && q[|pre| + |x|] == y[|x|];
    } else if |y| < |x| {
      assert q[|pre| + |y|] == '/' && p[|pre| + |y|] == x[|y|];
    } else if x != y {
      var k :| 0 <= k < |x| && x[k] != y[k];
      assert p[|pre| + k] == x[k] && q[|pre| + k] == y[k];
    } else {
      assert p[|pre| + |x| + 1] == a[1] && q[|pre| + |x| + 1] == b[1];
    }
  }
}

=== FILE: ssl.dfy ===
/** Choice of private key, certificate and signing-request paths for a
    domain (`get_domain_ssl_files`), and creation of a self-signed
    certificate when one is missing (`ensure_ssl_certificate_exists`). */
module Ssl {
  import opened Wrappers
  import opened Paths
  import opened Commands
  import opened Environment

  /** The key shared by every domain without a key of its own. */
  function SharedKeyPath(env: Env): string {
    Join(env.storageRoot, "ssl/ssl_private_key.pem")
  }

  function DomainKeyPath(env: Env, safe: string): string {
    Join(env.storageRoot, "ssl/" + safe + "/private_key.pem")
  }

  /** The certificate made at set-up time for the primary hostname. */
  function PrimaryCertPath(env: Env): string {
    Join(env.storageRoot, "ssl/ssl_certificate.pem")
  }

  function DomainCertPath(env: Env, safe: string): string {
    Join(env.storageRoot, "ssl/" + safe + "/ssl_certificate.pem")
  }

  function PrimaryCsrPath(env: Env): string {
    Join(env.storageRoot, "ssl/ssl_cert_sign_req.csr")
  }

  function DomainCsrPath(env: Env, safe: string): string {
    Join(env.storageRoot, "ssl/" + safe + "/certificate_signing_request.csr")
  }

  /** A per-domain key is never the shared key, whatever the directory name. */
  lemma DomainKeyIsNotShared(env: Env, safe: string)
    ensures DomainKeyPath(env, safe) != SharedKeyPath(env)
  {
    var x := "ssl/" + safe + "/private_key.pem";
    var y := "ssl/ssl_private_key.pem";
    assert |x| != |y| || x[7] != y[7];
    JoinInjective(env.storageRoot, x, y);
  }

  /** A per-domain certificate is never the primary certificate. */
  lemma DomainCertIsNotPrimary(env: Env, safe: string)
    ensures DomainCertPath(env, safe) != PrimaryCertPath(env)
  {
    var x := "ssl/" + safe + "/ssl_certificate.pem";
    var y := "ssl/ssl_certificate.pem";
    assert |x| != |y|;
    JoinInjective(env.storageRoot, x, y);
  }

  /** The signing request and certificate made for one domain are never
      the private key of a domain, when directory names are single path
      components. */
  lemma MadeFilesAreNotKeys(env: Env, safe: string, other: string)
    requires SingleComponent(safe) && SingleComponent(other)
    ensures DomainCsrPath(env, safe) != DomainKeyPath(env, other)
    ensures DomainCertPath(env, safe) != DomainKeyPath(env, other)
  {
    var key := "/private_key.pem";
    EntriesDiffer("ssl/", safe, other, "/certificate_signing_request.csr", key);
    EntriesDiffer("ssl/", safe, other, "/ssl_certificate.pem", key);
    JoinInjective(env.storageRoot, "ssl/" + safe + "/certificate_signing_request.csr", "ssl/" + other + key);
    JoinInjective(env.storageRoot, "ssl/" + safe + "/ssl_certificate.pem", "ssl/" + other + key);
  }

  datatype SslFiles = SslFiles(key: string, cert: string, csr: string)

  /** When a domain's certificate is missing, its signing request and
      certificate paths are the per-domain ones. */
  lemma MissingCertificateIsOwn(domain: string, env: Env, o: Oracles, files: set<string>)
    ensures var ssl := DomainSslFiles(domain, env, o, files);
      !CertificateInPlace(domain, ssl.cert, env, files) ==>
        ssl.csr == DomainCsrPath(env, o.safeName(domain)) && ssl.cert == DomainCertPath(env, o.safeName(domain))
  {
  }

  /** `get_domain_ssl_files`. `files` is the set of paths that exist; `o.certStatus`
      answers whether the primary certificate covers the domain. */
  function DomainSslFiles(domain: string, env: Env, o: Oracles, files: set<string>): (r: SslFiles)
    ensures domain == env.primaryHostname ==>
      r == SslFiles(SharedKeyPath(env), PrimaryCertPath(env), PrimaryCsrPath(env))
    ensures domain != env.primaryHostname ==>
      var safe := o.safeName(domain);
      && (r.key == DomainKeyPath(env, safe) <==> DomainKeyPath(env, safe) in files)
      && (r.key != DomainKeyPath(env, safe) ==> r.key == SharedKeyPath(env))
      && (r.cert == PrimaryCertPath(env) <==>
            DomainKeyPath(env, safe) !in files && o.certStatus(domain, PrimaryCertPath(env)) == "OK")
      && (r.cert != PrimaryCertPath(env) ==> r.cert == DomainCertPath(env, safe))
      && r.csr == DomainCsrPath(env, safe)
  {
    DomainKeyIsNotShared(env, o.safeName(domain));
    DomainCertIsNotPrimary(env, o.safeName(domain));
    var altKey := DomainKeyPath(env, o.safeName(domain));
    var keyIsAlt := domain != env.primaryHostname && altKey in files;
    var key := if keyIsAlt then altKey else SharedKeyPath(env);
    var primaryCert := PrimaryCertPath(env);
    var cert :=
      if domain == env.primaryHostname then primaryCert
      else if !keyIsAlt && o.certStatus(domain, primaryCert) == "OK" then primaryCert
      else DomainCertPath(env, o.safeName(domain));
    var csr :=
      if domain == env.primaryHostname then PrimaryCsrPath(env)
      else DomainCsrPath(env, o.safeName(domain));
    SslFiles(key, cert, csr)
  }

  /** The subject of a self-signed certificate: the configured country, the
      domain as common name, and every other field empty. */
  function Subject(env: Env, domain: string): string {
    "/C=" + env.csrCountry + "/ST=/L=/O=/CN=" + domain
  }

  /** A certificate is already available: the primary hostname's is made
      at set-up, the primary certificate is never made here, and an
      existing file is kept. */
  predicate CertificateInPlace(domain: string, cert: string, env: Env, files: set<string>) {
    domain == env.primaryHostname || cert == PrimaryCertPath(env) || cert in files
  }

  /** `ensure_ssl_certificate_exists`, the decision: which commands must run so that a
      certificate exists for `domain`. */
  function ProvisionCommands(domain: string, key: string, cert: string, csr: string,
                             env: Env, files: set<string>): (cmds: seq<Command>)
    ensures cmds == [] <==> CertificateInPlace(domain, cert, env, files)
    ensures cmds != [] ==>
      && |cmds| == 2
      && Argv(cmds[0]) == ["openssl", "req", "-new", "-key", key, "-out", csr,
                           "-subj", "/C=" + env.csrCountry + "/ST=/L=/O=/CN=" + domain]
      && Argv(cmds[1]) == ["openssl", "x509", "-req", "-days", "365", "-in", csr,
                           "-signkey", key, "-out", cert]
  {
    if domain == env.primaryHostname then []
    else if cert == PrimaryCertPath(env) then []
    else if cert in files then []
    else [OpensslReq(key, csr, Subject(env, domain)), OpensslX509(csr, key, cert)]
  }

  /** `ensure_ssl_certificate_exists` with the commands run: nothing happens when no command
      is needed; otherwise the signing request is made first and the
      certificate is signed only if that succeeded. */
  function EnsureCertificate(domain: string, key: string, cert: string, csr: string,
                             env: Env, ok: Command -> bool, files: set<string>): (e: Exec)
    ensures files <= e.files <= files + {csr, cert}
    ensures var cmds := ProvisionCommands(domain, key, cert, csr, env, files);
      && e.ran <= cmds
      && (e.failed.None? <==> e.ran == cmds && AllOk(cmds, ok))
    ensures CertificateInPlace(domain, cert, env, files) ==> e == Exec([], files, None)
    ensures !CertificateInPlace(domain, cert, env, files) ==>
      && 1 <= |e.ran| <= 2
      && e.ran[0] == OpensslReq(key, csr, Subject(env, domain))
      && (|e.ran| == 2 ==> e.ran[1] == OpensslX509(csr, key, cert))
      && (!ok(e.ran[0]) ==> e.ran == [e.ran[0]] && e.failed == Some(e.ran[0]) && e.files == files)
      && (e.failed.None? ==> |e.ran| == 2 && e.files == files + {csr, cert})
      && (|e.ran| == 2 && e.failed.Some? ==> e.files == files + {csr})
      && (e.failed.Some? ==> e.failed.value == e.ran[|e.ran| - 1] && !ok(e.failed.value))
    ensures e.failed.None? ==> CertificateInPlace(domain, cert, env, e.files)
    ensures NoReloads(e.ran)
  {
    var cmds := ProvisionCommands(domain, key, cert, csr, env, files);
    if |cmds| == 2 then
      CreatedPair(cmds[0], cmds[1]);
      CreatedCons(cmds[0], []);
      assert [cmds[0], cmds[1]][..1] == [cmds[0]] && [cmds[0]] + [] == [cmds[0]];
      RunAll(cmds, ok, files)
    else
      RunAll(cmds, ok, files)
  }
}

=== FILE: strings.dfy ===
/** The string operations the configuration renderer relies on:
    `str.replace`, `str.split`/`str.join` (its reference definition), and
    `re.split` with a capturing group, all over `seq<char>`. */
module Strings {
  import opened Wrappers

  /** `p` occurs in `s` starting at index `i`. */
  predicate OccursAt(s: string, p: string, i: nat) {
    i + |p| <= |s| && s[i..i + |p|] == p
  }

  /** `p` occurs somewhere in `s`. */
  ghost predicate Contains(s: string, p: string) {
    exists i: nat :: OccursAt(s, p, i)
  }

  /** Occurrences in `s[1..]` are the occurrences in `s` shifted by one. */
  lemma OccursShift(s: string, p: string)
    requires |s| > 0
    ensures forall j: nat :: OccursAt(s[1..], p, j) <==> OccursAt(s, p, j + 1)
    ensures forall j: nat :: j >= 1 ==> (OccursAt(s, p, j) <==> OccursAt(s[1..], p, j - 1))
  {
    forall j: nat
      ensures OccursAt(s[1..], p, j) <==> OccursAt(s, p, j + 1)
    {
      if j + 1 + |p| <= |s| {
        assert s[1..][j..j + |p|] == s[j + 1..j + 1 + |p|];
      }
    }
  }

  /** The index of the first occurrence of `p` in `s` (`str.find`, with
      `None` in place of -1). */
  function IndexOf(s: string, p: string): (r: Option<nat>)
    ensures r.Some? ==> OccursAt(s, p, r.value)
    ensures r.Some? ==> forall j: nat :: j < r.value ==> !OccursAt(s, p, j)
    ensures r.None? ==> forall j: nat :: !OccursAt(s, p, j)
    decreases |s|
  {
    if |s| < |p| then None
    else if s[..|p|] == p then Some(0)
    else
      assert !OccursAt(s, p, 0) by { assert s[0..|p|] == s[..|p|]; }
      OccursShift(s, p);
      match IndexOf(s[1..], p)
      case None => None
      case Some(i) => Some(i + 1)
  }

  /** `str.replace(p, r)` with the empty pattern: `r` before every
      character and at the end. */
  function ReplaceEmpty(s: string, r: string): string
  {
    if |s| == 0 then r else r + [s[0]] + ReplaceEmpty(s[1..], r)
  }

  /** `s.replace(p, r)`: every non-overlapping occurrence of `p`, scanning
      left to right, is replaced by `r`. */
  function ReplaceAll(s: string, p: string, r: string): string
    decreases |s|
  {
    if |p| == 0 then ReplaceEmpty(s, r)
    else if |s| < |p| then s
    else if s[..|p|] == p then r + ReplaceAll(s[|p|..], p, r)
    else [s[0]] + ReplaceAll(s[1..], p, r)
  }

  /** `s.split(p)` for a non-empty separator. */
  function SplitOn(s: string, p: string): (parts: seq<string>)
    requires |p| > 0
    ensures |parts| > 0
    decreases |s|
  {
    if |s| < |p| then [s]
    else if s[..|p|] == p then [[]] + SplitOn(s[|p|..], p)
    else
      var rest := SplitOn(s[1..], p);
      [[s[0]] + rest[0]] + rest[1..]
  }

  /** `sep.join(parts)`. */
  function JoinWith(parts: seq<string>, sep: string): string
    requires |parts| > 0
  {
    if |parts| == 1 then parts[0] else parts[0] + sep + JoinWith(parts[1..], sep)
  }

  /** `"".join(parts)`. */
  function Concat(parts: seq<string>): string
  {
    if |parts| == 0 then [] else parts[0] + Concat(parts[1..])
  }

  lemma JoinWithConsChar(c: char, parts: seq<string>, sep: string)
    requires |parts| > 0
    ensures JoinWith([[c] + parts[0]] + parts[1..], sep) == [c] + JoinWith(parts, sep)
  {
    var q := [[c] + parts[0]] + parts[1..];
    assert q[1..] == parts[1..];
  }

  /** Replacing is, equivalently, splitting at the pattern and joining with
      the replacement. */
  lemma {:induction false} ReplaceIsSplitJoin(s: string, p: string, r: string)
    requires |p| > 0
    ensures ReplaceAll(s, p, r) == JoinWith(SplitOn(s, p), r)
    decreases |s|
  {
    if |s| < |p| {
    } else if s[..|p|] == p {
      ReplaceIsSplitJoin(s[|p|..], p, r);
      var q := [[]] + SplitOn(s[|p|..], p);
      assert q[1..] == SplitOn(s[|p|..], p);
    } else {
      ReplaceIsSplitJoin(s[1..], p, r);
      JoinWithConsChar(s[0], SplitOn(s[1..], p), r);
    }
  }

  /** A pattern that does not occur is left alone. */
  lemma {:induction false} ReplaceAbsent(s: string, p: string, r: string)
    requires !Contains(s, p)
    ensures ReplaceAll(s, p, r) == s
    decreases |s|
  {
    if |p| == 0 {
      assert OccursAt(s, p, 0);
      assert false;
    } else if |s| < |p| {
    } else {
      assert !OccursAt(s, p, 0);
      assert s[..|p|] != p;
      OccursShift(s, p);
      assert !Contains(s[1..], p) by {
        forall j: nat ensures !OccursAt(s[1..], p, j) {
          assert !OccursAt(s, p, j + 1);
        }
      }
      ReplaceAbsent(s[1..], p, r);
      assert s == [s[0]] + s[1..];
    }
  }

  /** A check of the `SplitOn` reference against `str.split`: joining the
      pieces of a split with the separator gives back the original string,
      since replacing a pattern by itself is the identity. */
  lemma {:induction false} SplitJoinRoundTrip(s: string, p: string)
    requires |p| > 0
    ensures JoinWith(SplitOn(s, p), p) == s
    decreases |s|
  {
    ReplaceSelf(s, p);
    ReplaceIsSplitJoin(s, p, p);
  }

  /** Replacing a pattern by itself is the identity. */
  lemma {:induction false} ReplaceSelf(s: string, p: string)
    requires |p| > 0
    ensures ReplaceAll(s, p, p) == s
    decreases |s|
  {
    if |s| < |p| {
    } else if s[..|p|] == p {
      ReplaceSelf(s[|p|..], p);
      assert s == s[..|p|] + s[|p|..];
    } else {
      ReplaceSelf(s[1..], p);
      assert s == [s[0]] + s[1..];
    }
  }

  /** `re.split("(m)", s)` for a literal `m`: the text between matches,
      with every match kept as its own piece. */
  function SplitKeep(s: string, m: string): (parts: seq<string>)
    requires |m| > 0
    decreases |s|
  {
    match IndexOf(s, m)
    case None => [s]
    case Some(i) => [s[..i], m] + SplitKeep(s[i + |m|..], m)
  }

  /** Joining the pieces of `SplitKeep` gives back the text. */
  lemma {:induction false} SplitKeepConcat(s: string, m: string)
    requires |m| > 0
    ensures Concat(SplitKeep(s, m)) == s
    decreases |s|
  {
    match IndexOf(s, m)
    case None =>
    case Some(i) =>
      var rest := s[i + |m|..];
      SplitKeepConcat(rest, m);
      ConcatTwo(s[..i], m, SplitKeep(rest, m));
      assert s == s[..i] + m + rest by {
        assert OccursAt(s, m, i);
        assert s == s[..i] + s[i..i + |m|] + s[i + |m|..];
      }
  }

  /** There are at least two pieces exactly when the marker occurs; then
      the first two are the text before the first match and the match
      itself, and the remaining pieces join to the text after it. */
  lemma SplitKeepShape(s: string, m: string)
    requires |m| > 0
    ensures |SplitKeep(s, m)| >= 2 <==> IndexOf(s, m).Some?
    ensures IndexOf(s, m).Some? ==>
      var i := IndexOf(s, m).value;
      var parts := SplitKeep(s, m);
      parts[0] == s[..i] && parts[1] == m && Concat(parts[2..]) == s[i + |m|..]
  {
    match IndexOf(s, m)
    case None =>
    case Some(i) =>
      var rest := s[i + |m|..];
      SplitKeepConcat(rest, m);
      assert SplitKeep(s, m)[2..] == SplitKeep(rest, m);
  }

  lemma ConcatTwo(a: string, b: string, rest: seq<string>)
    ensures Concat([a, b] + rest) == a + b + Concat(rest)
  {
    var q := [a, b] + rest;
    assert q[1..] == [b] + rest;
    assert q[1..][1..] == rest;
  }

  /** The text up to the end of an occurrence is the text before it
      followed by the pattern. */
  lemma PrefixThrough(s: string, m: string, i: nat)
    requires OccursAt(s, m, i)
    ensures s[..i + |m|] == s[..i] + m
  {
    assert s[..i + |m|] == s[..i] + s[i..i + |m|];
  }

  lemma ConcatGrowSecond(a: string, b: string, extra: string, tail: seq<string>)
    ensures Concat([a, b + extra] + tail) == (a + b) + extra + Concat(tail)
  {
    ConcatTwo(a, b + extra, tail);
  }

  /** Adding `extra` to the captured marker piece of a split at an
      occurrence and joining the pieces inserts `extra` right after that
      occurrence. */
  lemma InsertAfter(s: string, m: string, extra: string, parts: seq<string>, i: nat)
    requires OccursAt(s, m, i) && |parts| >= 2
    requires parts[0] == s[..i] && parts[1] == m && Concat(parts[2..]) == s[i + |m|..]
    ensures Concat([parts[0], parts[1] + extra] + parts[2..]) == s[..i + |m|] + extra + s[i + |m|..]
  {
    PrefixThrough(s, m, i);
    ConcatGrowSecond(parts[0], parts[1], extra, parts[2..]);
  }
}

=== FILE: text_mode.dfy ===
/** Reading a file in Python's text mode with universal newlines: `\r\n`
    and a lone `\r` both come back as `\n`. Writing in text mode on a POSIX
    system leaves the text as it is. */
module TextMode {

  /** The text that reading a file holding `s` returns. */
  function ReadBack(s: string): string
    decreases |s|
  {
    if |s| == 0 then []
    else if s[0] == '\r' then ['\n'] + ReadBack(if |s| > 1 && s[1] == '\n' then s[2..] else s[1..])
    else [s[0]] + ReadBack(s[1..])
  }

  /** Reading never returns a carriage return. */
  lemma {:induction false} ReadBackHasNoCarriageReturn(s: string)
    ensures '\r' !in ReadBack(s)
    decreases |s|
  {
    if |s| > 0 {
      if s[0] == '\r' {
        ReadBackHasNoCarriageReturn(if |s| > 1 && s[1] == '\n' then s[2..] else s[1..]);
      } else {
        ReadBackHasNoCarriageReturn(s[1..]);
      }
    }
  }

  /** A text without carriage returns reads back unchanged. */
  lemma {:induction false} ReadBackIdentity(s: string)
    requires '\r' !in s
    ensures ReadBack(s) == s
    decreases |s|
  {
    if |s| > 0 {
      assert s[0] in s;
      assert forall c :: c in s[1..] ==> c in s;
      ReadBackIdentity(s[1..]);
    }
  }

  /** A text reads back as itself exactly when it holds no carriage return. */
  lemma RoundTrip(s: string)
    ensures ReadBack(s) == s <==> '\r' !in s
  {
    ReadBackHasNoCarriageReturn(s);
    if '\r' !in s {
      ReadBackIdentity(s);
    }
  }
}

=== FILE: web_domains.dfy ===
/** Which hostnames the box serves web pages for (`get_web_domains`). */
module WebDomains {
  import opened Wrappers
  import opened Environment

  /** A custom DNS entry as loaded from the DNS settings: a plain string, a
      mapping whose `A`/`AAAA` keys may be present, or any other value (a
      list, a number, ...). A present `A`/`AAAA` value that is not a string
      only matters through being different from "local", so any string
      other than "local" stands for it. */
  datatype Override =
    | Str(s: string)
    | Dict(a: Option<string>, aaaa: Option<string>)
    | Other

  /** `get_web_domains`' removal test: the entry sends the domain to
      another machine. */
  predicate PointsAway(v: Override) {
    || (v.Str? && v.s != "local")
    || (v.Dict? && v.a.Some? && v.a.value != "local")
    || (v.Dict? && v.aaaa.Some? && v.aaaa.value != "local")
  }

  /** The selection rule stated positively: the domain has no entry, or an
      entry this box still answers for. */
  predicate ServesLocally(dns: map<string, Override>, d: string) {
    d !in dns ||
    match dns[d]
    case Str(s) => s == "local"
    case Dict(a, aaaa) =>
      (a == None || a == Some("local")) && (aaaa == None || aaaa == Some("local"))
    case Other => true
  }

  /** The domains considered before filtering: the primary hostname and
      every domain that has mail users. */
  function Candidates(primary: string, mail: set<string>): set<string> {
    {primary} + mail
  }

  /** Reference definition of the selected set. */
  function WebDomainSet(primary: string, mail: set<string>, dns: map<string, Override>): set<string> {
    set d | d in Candidates(primary, mail) && ServesLocally(dns, d)
  }

  /** The selection loop of `get_web_domains`: start from the candidates and walk the DNS entries,
      skipping those for other domains and removing each candidate whose
      entry points away. */
  method SelectWebDomains(primary: string, mail: set<string>, dns: map<string, Override>)
    returns (domains: set<string>)
    ensures domains <= Candidates(primary, mail)
    ensures forall d :: d in domains <==> (d == primary || d in mail) && ServesLocally(dns, d)
    ensures primary in dns && PointsAway(dns[primary]) ==> primary !in domains
    ensures domains == WebDomainSet(primary, mail, dns)
  {
    domains := {primary};
    domains := domains + mail;
    var pending := dns.Keys;
    while pending != {}
      invariant pending <= dns.Keys
      invariant forall d :: d in domains <==>
        (d == primary || d in mail) && (d in pending || ServesLocally(dns, d))
      decreases pending
    {
      var domain :| domain in pending;
      pending := pending - {domain};
      if domain !in domains {
        continue;
      }
      if PointsAway(dns[domain]) {
        domains := domains - {domain};
      }
    }
  }

  /** What the update relies on from `sort_domains`: the list holds each
      domain of the set once and nothing else, and starts with the primary
      hostname whenever the set contains it. */
  ghost predicate SortsDomains(env: Env, sort: set<string> -> seq<string>) {
    forall domains: set<string> ::
      && (forall d :: d in sort(domains) <==> d in domains)
      && (forall i, j :: 0 <= i < j < |sort(domains)| ==> sort(domains)[i] != sort(domains)[j])
      && (env.primaryHostname in domains ==> |sort(domains)| > 0 && sort(domains)[0] == env.primaryHostname)
  }

  /** `get_web_domains`: the selected set handed to `sort_domains`. With a
      `sort_domains` as described, every selected domain is listed once, and
      the primary hostname comes first whenever it is selected. */
  function GetWebDomains(env: Env, o: Oracles, mail: set<string>, dns: map<string, Override>): (r: seq<string>)
    ensures SortsDomains(env, o.sortDomains) ==>
      && (forall d :: d in r <==> (d == env.primaryHostname || d in mail) && ServesLocally(dns, d))
      && (forall i, j :: 0 <= i < j < |r| ==> r[i] != r[j])
      && (ServesLocally(dns, env.primaryHostname) ==> |r| > 0 && r[0] == env.primaryHostname)
  {
    o.sortDomains(WebDomainSet(env.primaryHostname, mail, dns))
  }
}

=== FILE: web_update.dfy ===
/** The whole update (`do_web_update`): render every served domain, compare
    with the installed configuration, and write and reload only on change. */
module WebUpdate {
  import opened Wrappers
  import opened Strings
  import opened Commands
  import opened Environment
  import opened WebDomains
  import opened Ssl
  import opened DomainConfig
  import opened Paths
  import opened TextMode

  /** Everything one run reads: configuration, collaborators, the preamble
      (`conf/nginx-top.conf`), the per-domain template (`conf/nginx.conf`),
      the overlay, the mail domains and the custom DNS entries. */
  datatype Inputs = Inputs(
    env: Env,
    oracles: Oracles,
    preamble: string,
    template: string,
    overlay: Overlay,
    mailDomains: set<string>,
    dns: map<string, Override>)

  /** What the run can change: the existing files, the installed nginx
      configuration (`None` when absent), how many times it was written,
      and the log of commands started. */
  datatype Machine = Machine(files: set<string>, conf: Option<string>, writes: nat, log: seq<Command>)

  /** The returned message, or the exception that ended the run. */
  datatype Status = Done(message: string) | Failed(error: Error)

  /** Configures one domain given the files that exist. */
  type Renderer = (string, set<string>) -> DomainStep

  /** A renderer that only ever adds files and never reloads nginx. */
  ghost predicate Orderly(render: Renderer) {
    forall d, files :: files <= render(d, files).files && NoReloads(render(d, files).ran)
  }

  /** The renderer of this file: `make_domain_config` with the run's inputs. */
  function DomainRenderer(inp: Inputs): Renderer {
    (d, files) => MakeDomainConfig(d, inp.env, inp.oracles, inp.template, inp.overlay, files)
  }

  lemma DomainRendererIsOrderly(inp: Inputs)
    ensures Orderly(DomainRenderer(inp))
  {
    forall d, files
      ensures files <= DomainRenderer(inp)(d, files).files
      ensures NoReloads(DomainRenderer(inp)(d, files).ran)
    {
      var s := MakeDomainConfig(d, inp.env, inp.oracles, inp.template, inp.overlay, files);
      assert DomainRenderer(inp)(d, files) == s;
    }
  }

  /** Result of rendering a list of domains: the blocks of the domains
      rendered successfully, the set of existing files each domain started
      from (including the one that failed, if any), the commands started,
      the files afterwards, and the error that stopped rendering, if any. */
  datatype Build = Build(
    blocks: seq<string>,
    seen: seq<set<string>>,
    ran: seq<Command>,
    files: set<string>,
    error: Option<Error>)

  /** Domains rendered one after another: the first starts from `files`,
      each next one from the files the previous step left, and `last` is
      what the last step left. */
  predicate Threaded(domains: seq<string>, render: Renderer, files: set<string>, seen: seq<set<string>>,
                     last: set<string>)
    requires |seen| <= |domains|
    decreases |seen|
  {
    if |seen| == 0 then last == files
    else seen[0] == files && Threaded(domains[1..], render, render(domains[0], files).files, seen[1..], last)
  }

  /** The first `|blocks|` domains, in list order, each rendered to the
      block at the same position from the files it saw. */
  predicate RenderedInOrder(domains: seq<string>, render: Renderer, blocks: seq<string>, seen: seq<set<string>>)
    requires |blocks| <= |seen| <= |domains|
    decreases |blocks|
  {
    |blocks| > 0 ==>
      && render(domains[0], seen[0]).result == Success(blocks[0])
      && RenderedInOrder(domains[1..], render, blocks[1..], seen[1..])
  }

  /** The commands of the steps, in order. */
  function RanInOrder(domains: seq<string>, render: Renderer, seen: seq<set<string>>): seq<Command>
    requires |seen| <= |domains|
    decreases |seen|
  {
    if |seen| == 0 then [] else render(domains[0], seen[0]).ran + RanInOrder(domains[1..], render, seen[1..])
  }

  /** The loop of `do_web_update`: each domain in turn; the
      certificates made for one domain exist for the next; the first
      failure ends the loop. */
  function BuildBlocks(domains: seq<string>, render: Renderer, files: set<string>): (b: Build)
    requires Orderly(render)
    ensures files <= b.files
    ensures NoReloads(b.ran)
    ensures |b.blocks| <= |b.seen| <= |domains|
    ensures b.error.None? ==> |b.blocks| == |b.seen| == |domains|
    ensures b.error.Some? ==>
      && |b.seen| == |b.blocks| + 1
      && render(domains[|b.blocks|], b.seen[|b.blocks|]).result == Failure(b.error.value)
    ensures Threaded(domains, render, files, b.seen, b.files)
    ensures RenderedInOrder(domains, render, b.blocks, b.seen)
    ensures b.ran == RanInOrder(domains, render, b.seen)
    decreases |domains|
  {
    if |domains| == 0 then Build([], [], [], files, None)
    else
      var step := render(domains[0], files);
      if step.result.Failure? then
        assert Threaded(domains[1..], render, step.files, [files][1..], step.files);
        assert RanInOrder(domains[1..], render, [files][1..]) == [];
        Build([], [files], step.ran, step.files, Some(step.result.error))
      else
        var rest := BuildBlocks(domains[1..], render, step.files);
        BuildCons(domains, render, files, rest);
        Build([step.result.value] + rest.blocks, [files] + rest.seen, step.ran + rest.ran, rest.files, rest.error)
  }

  /** One successful step of `BuildBlocks` followed by the rest. */
  lemma BuildCons(domains: seq<string>, render: Renderer, files: set<string>, rest: Build)
    requires |domains| > 0
    requires render(domains[0], files).result.Success?
    requires files <= render(domains[0], files).files <= rest.files
    requires NoReloads(render(domains[0], files).ran) && NoReloads(rest.ran)
    requires |rest.blocks| <= |rest.seen| <= |domains| - 1
    requires rest.error.Some? ==>
      && |rest.seen| == |rest.blocks| + 1
      && render(domains[1..][|rest.blocks|], rest.seen[|rest.blocks|]).result == Failure(rest.error.value)
    ensures var step := render(domains[0], files);
      var b := Build([step.result.value] + rest.blocks, [files] + rest.seen, step.ran + rest.ran, rest.files, rest.error);
      && NoReloads(b.ran)
      && b.blocks[1..] == rest.blocks
      && b.seen[1..] == rest.seen
      && (b.error.Some? ==> render(domains[|b.blocks|], b.seen[|b.blocks|]).result == Failure(b.error.value))
  {
    var step := render(domains[0], files);
    var ran := step.ran + rest.ran;
    forall i | 0 <= i < |ran|
      ensures !ran[i].NginxReload?
    {
      if i >= |step.ran| {
        assert ran[i] == rest.ran[i - |step.ran|];
      }
    }
    var seen := [files] + rest.seen;
    if rest.error.Some? {
      var k := |rest.blocks|;
      assert seen[k + 1] == rest.seen[k];
      assert domains[k + 1] == domains[1..][k];
    }
  }

  /** The installed configuration exists and, read in text mode, equals
      `text`. */
  predicate ReadsAs(conf: Option<string>, text: string) {
    conf.Some? && ReadBack(conf.value) == text
  }

  /** Only a text without carriage returns can be read back. */
  lemma ReadsAsHasNoCarriageReturn(conf: Option<string>, text: string)
    ensures ReadsAs(conf, text) ==> '\r' !in text
  {
    if conf.Some? {
      ReadBackHasNoCarriageReturn(conf.value);
    }
  }

  /** The end of `do_web_update`: leave a configuration that reads back as
      the text alone; otherwise write the text and reload nginx once. */
  function Apply(text: string, m: Machine, ok: Command -> bool): (r: (Machine, Status))
    ensures r.0.files == m.files
    ensures r.0.conf == Some(text) || (ReadsAs(m.conf, text) && r.0.conf == m.conf)
    ensures r.1 == Done("") <==> ReadsAs(m.conf, text)
    ensures ReadsAs(m.conf, text) ==> r.0 == m
    ensures '\r' in text ==> r.0.writes == m.writes + 1
    ensures r.0.writes <= m.writes + 1
    ensures Reloads(r.0.log) == Reloads(m.log) + (r.0.writes - m.writes)
    ensures !ReadsAs(m.conf, text) ==>
      && r.0 == m.(conf := Some(text), writes := m.writes + 1, log := m.log + [NginxReload])
      && r.0.log[|r.0.log| - 1] == NginxReload
      && (r.1 == Done("web updated\n") <==> ok(NginxReload))
      && (r.1.Failed? <==> !ok(NginxReload))
      && (r.1.Failed? ==> r.1.error == CommandFailed(NginxReload))
  {
    ReadsAsHasNoCarriageReturn(m.conf, text);
    if ReadsAs(m.conf, text) then (m, Done(""))
    else
      var written := m.(conf := Some(text), writes := m.writes + 1, log := m.log + [NginxReload]);
      ReloadsAppend(m.log, [NginxReload]);
      assert Reloads([NginxReload]) == 1 by { assert [NginxReload][1..] == []; }
      if ok(NginxReload) then (written, Done("web updated\n"))
      else (written, Failed(CommandFailed(NginxReload)))
  }

  /** Applying the same text a second time changes nothing exactly when the
      text holds no carriage return; one that does is rewritten, and nginx
      reloaded, every time. */
  lemma ApplyTwice(text: string, m: Machine, ok: Command -> bool)
    ensures Apply(text, Apply(text, m, ok).0, ok) == (Apply(text, m, ok).0, Done("")) <==> '\r' !in text
  {
    RoundTrip(text);
  }

  function WebDomainList(inp: Inputs): seq<string> {
    GetWebDomains(inp.env, inp.oracles, inp.mailDomains, inp.dns)
  }

  /** The rendering of the served domains from the machine's files. */
  function Built(inp: Inputs, m: Machine): Build {
    DomainRendererIsOrderly(inp);
    BuildBlocks(WebDomainList(inp), DomainRenderer(inp), m.files)
  }

  /** `do_web_update`: the preamble followed by the blocks of the served
      domains, applied to the machine. */
  function DoWebUpdate(inp: Inputs, m: Machine): (r: (Machine, Status))
    ensures var b := Built(inp, m);
      && r.0.files == b.files
      && (b.error.Some? ==>
            r == (m.(files := b.files, log := m.log + b.ran), Failed(b.error.value)))
      && (b.error.None? ==>
            var text := inp.preamble + Concat(b.blocks);
            && (r.0.conf == Some(text) || (ReadsAs(m.conf, text) && r.0.conf == m.conf))
            && r.0.log == m.log + b.ran + (if ReadsAs(m.conf, text) then [] else [NginxReload])
            && (r.1 == Done("") <==> ReadsAs(m.conf, text))
            && (ReadsAs(m.conf, text) ==>
                  r.0.writes == m.writes && Reloads(r.0.log) == Reloads(m.log))
            && (!ReadsAs(m.conf, text) ==>
                  && r.0.writes == m.writes + 1
                  && Reloads(r.0.log) == Reloads(m.log) + 1
                  && r.0.log[|r.0.log| - 1] == NginxReload
                  && (r.1 == Done("web updated\n") <==> inp.oracles.succeeds(NginxReload))
                  && (r.1 == Failed(CommandFailed(NginxReload)) <==> !inp.oracles.succeeds(NginxReload))))
  {
    var b := Built(inp, m);
    var provisioned := m.(files := b.files, log := m.log + b.ran);
    NoReloadsIn(b.ran);
    ReloadsAppend(m.log, b.ran);
    match b.error
    case Some(e) => (provisioned, Failed(e))
    case None => Apply(inp.preamble + Concat(b.blocks), provisioned, inp.oracles.succeeds)
  }

  lemma {:induction false} NoReloadsIn(log: seq<Command>)
    requires NoReloads(log)
    ensures Reloads(log) == 0
    decreases |log|
  {
    if |log| > 0 {
      NoReloadsIn(log[1..]);
    }
  }

  /** The existence answers that shape a domain's block agree in `before`
      and `after`: its own web root, the default web root and its own key. */
  predicate SameAnswers(inp: Inputs, d: string, before: set<string>, after: set<string>) {
    var safe := inp.oracles.safeName(d);
    && (WwwPath(inp.env, safe) in before <==> WwwPath(inp.env, safe) in after)
    && (WwwPath(inp.env, inp.oracles.safeName("default")) in before
        <==> WwwPath(inp.env, inp.oracles.safeName("default")) in after)
    && (DomainKeyPath(inp.env, safe) in before <==> DomainKeyPath(inp.env, safe) in after)
  }

  predicate Undisturbed(inp: Inputs, domains: seq<string>, before: set<string>, after: set<string>) {
    forall d :: d in domains ==> SameAnswers(inp, d, before, after)
  }

  /** A renderer is quiet from `before` to `after` on `domains` when, for
      any files in between, a successful rendering whose files all exist in
      `after` renders again from `after` to the same result, starting no
      command. */
  ghost predicate Quiet(render: Renderer, domains: seq<string>, before: set<string>, after: set<string>) {
    forall d, files ::
      d in domains && before <= files <= after &&
      render(d, files).result.Success? && render(d, files).files <= after
      ==> render(d, after) == DomainStep([], after, render(d, files).result)
  }

  /** Rendering again after a successful rendering, with every certificate
      it made now present, gives the same blocks and starts no command. */
  lemma {:induction false} QuietRebuild(domains: seq<string>, render: Renderer, before: set<string>, after: set<string>)
    requires Orderly(render)
    requires BuildBlocks(domains, render, before).error.None?
    requires before <= after && BuildBlocks(domains, render, before).files <= after
    requires Quiet(render, domains, before, after)
    ensures var again := BuildBlocks(domains, render, after);
      again == Build(BuildBlocks(domains, render, before).blocks, again.seen, [], after, None)
    decreases |domains|
  {
    if |domains| > 0 {
      var d := domains[0];
      var first := render(d, before);
      assert first.files <= after;
      assert render(d, after) == DomainStep([], after, first.result);
      var rest := domains[1..];
      var r1 := BuildBlocks(rest, render, first.files);
      assert Quiet(render, rest, first.files, after) by {
        forall d', files |
          d' in rest && first.files <= files <= after &&
          render(d', files).result.Success? && render(d', files).files <= after
          ensures render(d', after) == DomainStep([], after, render(d', files).result)
        {
          assert d' in domains;
        }
      }
      QuietRebuild(rest, render, first.files, after);
      var r2 := BuildBlocks(rest, render, after);
      assert BuildBlocks(domains, render, before).blocks == [first.result.value] + r1.blocks;
      assert BuildBlocks(domains, render, after)
          == Build([first.result.value] + r2.blocks, [after] + r2.seen, [] + r2.ran, r2.files, r2.error);
    }
  }

  /** The same answers give the same web root and SSL files. */
  lemma SameChoices(d: string, inp: Inputs, before: set<string>, after: set<string>)
    requires SameAnswers(inp, d, before, after)
    ensures WebRoot(d, inp.env, inp.oracles, before) == WebRoot(d, inp.env, inp.oracles, after)
    ensures DomainSslFiles(d, inp.env, inp.oracles, before) == DomainSslFiles(d, inp.env, inp.oracles, after)
  {
  }

  /** One domain rendered again, once its certificate is in place, starts
      no command and gives the same result. */
  lemma QuietStep(d: string, inp: Inputs, before: set<string>, after: set<string>)
    requires SameAnswers(inp, d, before, after) && before <= after
    requires MakeDomainConfig(d, inp.env, inp.oracles, inp.template, inp.overlay, before).result.Success?
    requires MakeDomainConfig(d, inp.env, inp.oracles, inp.template, inp.overlay, before).files <= after
    ensures MakeDomainConfig(d, inp.env, inp.oracles, inp.template, inp.overlay, after)
      == DomainStep([], after, MakeDomainConfig(d, inp.env, inp.oracles, inp.template, inp.overlay, before).result)
  {
    SameChoices(d, inp, before, after);
  }

  /** Undisturbed existence answers make this file's renderer quiet. */
  lemma UndisturbedIsQuiet(inp: Inputs, domains: seq<string>, before: set<string>, after: set<string>)
    requires Undisturbed(inp, domains, before, after)
    ensures Quiet(DomainRenderer(inp), domains, before, after)
  {
    var render := DomainRenderer(inp);
    forall d, files |
      d in domains && before <= files <= after &&
      render(d, files).result.Success? && render(d, files).files <= after
      ensures render(d, after) == DomainStep([], after, render(d, files).result)
    {
      assert SameAnswers(inp, d, before, after);
      QuietStep(d, inp, files, after);
    }
  }

  /** A renderer that never creates a file of `keep`. */
  ghost predicate Keeps(render: Renderer, keep: set<string>) {
    forall d, files :: render(d, files).files * keep <= files
  }

  /** A run of renderers that never create a file of `keep` creates none. */
  lemma {:induction false} BuildKeeps(domains: seq<string>, render: Renderer, files: set<string>, keep: set<string>)
    requires Orderly(render) && Keeps(render, keep)
    ensures BuildBlocks(domains, render, files).files * keep <= files
    decreases |domains|
  {
    if |domains| > 0 {
      var step := render(domains[0], files);
      assert step.files * keep <= files;
      if step.result.Success? {
        BuildKeeps(domains[1..], render, step.files, keep);
      }
    }
  }

  /** `safe_domain_name` turns every domain into a single path component. */
  ghost predicate SafeNames(o: Oracles) {
    forall d :: SingleComponent(o.safeName(d))
  }

  /** The paths whose existence the blocks of `domains` depend on. */
  function Consulted(inp: Inputs, domains: seq<string>): set<string> {
    (set d | d in domains :: WwwPath(inp.env, inp.oracles.safeName(d)))
    + (set d | d in domains :: DomainKeyPath(inp.env, inp.oracles.safeName(d)))
    + {WwwPath(inp.env, inp.oracles.safeName("default"))}
  }

  /** Configuring a domain creates no web root and no private key. */
  lemma DomainRendererKeeps(inp: Inputs, domains: seq<string>)
    requires SafeNames(inp.oracles)
    ensures Keeps(DomainRenderer(inp), Consulted(inp, domains))
  {
    var keep := Consulted(inp, domains);
    forall d, files
      ensures DomainRenderer(inp)(d, files).files * keep <= files
    {
      var safe := inp.oracles.safeName(d);
      MadeFilesNotConsulted(inp, domains, safe);
      StepAddsOwnFiles(inp, d, files);
    }
  }

  /** One configuration step adds at most the domain's own signing request
      and certificate. */
  lemma StepAddsOwnFiles(inp: Inputs, d: string, files: set<string>)
    ensures var safe := inp.oracles.safeName(d);
      DomainRenderer(inp)(d, files).files <= files + {DomainCsrPath(inp.env, safe), DomainCertPath(inp.env, safe)}
  {
    var s := MakeDomainConfig(d, inp.env, inp.oracles, inp.template, inp.overlay, files);
    assert DomainRenderer(inp)(d, files) == s;
  }

  /** A domain's signing request and certificate are not consulted paths. */
  lemma MadeFilesNotConsulted(inp: Inputs, domains: seq<string>, safe: string)
    requires SafeNames(inp.oracles) && SingleComponent(safe)
    ensures DomainCsrPath(inp.env, safe) !in Consulted(inp, domains)
    ensures DomainCertPath(inp.env, safe) !in Consulted(inp, domains)
  {
    var csr, cert := DomainCsrPath(inp.env, safe), DomainCertPath(inp.env, safe);
    MadeFilesAreNotWebRoots(inp.env, safe, inp.oracles.safeName("default"));
    forall d | d in domains
      ensures csr != WwwPath(inp.env, inp.oracles.safeName(d)) && cert != WwwPath(inp.env, inp.oracles.safeName(d))
      ensures csr != DomainKeyPath(inp.env, inp.oracles.safeName(d)) && cert != DomainKeyPath(inp.env, inp.oracles.safeName(d))
    {
      MadeFilesAreNotWebRoots(inp.env, safe, inp.oracles.safeName(d));
      MadeFilesAreNotKeys(inp.env, safe, inp.oracles.safeName(d));
    }
    var roots := set d | d in domains :: WwwPath(inp.env, inp.oracles.safeName(d));
    var keys := set d | d in domains :: DomainKeyPath(inp.env, inp.oracles.safeName(d));
    assert csr !in roots && cert !in roots;
    assert csr !in keys && cert !in keys;
  }

  /** A first update creates no file its own blocks depend on. */
  lemma UpdateLeavesAnswers(inp: Inputs, m: Machine)
    requires SafeNames(inp.oracles)
    ensures Undisturbed(inp, WebDomainList(inp), m.files, Built(inp, m).files)
  {
    var domains := WebDomainList(inp);
    var keep := Consulted(inp, domains);
    DomainRendererIsOrderly(inp);
    DomainRendererKeeps(inp, domains);
    BuildKeeps(domains, DomainRenderer(inp), m.files, keep);
    var after := Built(inp, m).files;
    forall d | d in domains
      ensures SameAnswers(inp, d, m.files, after)
    {
      assert WwwPath(inp.env, inp.oracles.safeName(d)) in keep;
      assert DomainKeyPath(inp.env, inp.oracles.safeName(d)) in keep;
      assert WwwPath(inp.env, inp.oracles.safeName("default")) in keep;
    }
  }

  /** Calling the update again with the same inputs, once the first call
      rendered every domain, is a no-op returning "" (nothing written,
      nothing reloaded, no command started) exactly when the configuration
      text holds no carriage return. The no-op holds also when the first
      call's reload failed, so a failed reload is not retried by running
      the update again. It relies on `safe_domain_name` giving single path
      components, so that the first call creates none of the web roots and
      keys the blocks depend on. */
  lemma SecondUpdateIsNoOp(inp: Inputs, m: Machine)
    requires Built(inp, m).error.None?
    requires SafeNames(inp.oracles)
    ensures DoWebUpdate(inp, DoWebUpdate(inp, m).0) == (DoWebUpdate(inp, m).0, Done(""))
      <==> '\r' !in inp.preamble + Concat(Built(inp, m).blocks)
  {
    UpdateLeavesAnswers(inp, m);
    var m1 := DoWebUpdate(inp, m).0;
    var b := Built(inp, m);
    var text := inp.preamble + Concat(b.blocks);
    var provisioned := m.(files := b.files, log := m.log + b.ran);
    assert DoWebUpdate(inp, m) == Apply(text, provisioned, inp.oracles.succeeds);
    DomainRendererIsOrderly(inp);
    UndisturbedIsQuiet(inp, WebDomainList(inp), m.files, m1.files);
    QuietRebuild(WebDomainList(inp), DomainRenderer(inp), m.files, m1.files);
    var b2 := Built(inp, m1);
    assert b2.blocks == b.blocks && b2.ran == [] && b2.files == m1.files && b2.error.None?;
    assert m1.(files := b2.files, log := m1.log + b2.ran) == m1;
    assert DoWebUpdate(inp, m1) == Apply(text, m1, inp.oracles.succeeds);
    ApplyTwice(text, provisioned, inp.oracles.succeeds);
  }
}

=== FILE: wrappers.dfy ===
/** Optional values and results with an error side, used wherever the
    modelled code either has no value or raises. */
module Wrappers {

  datatype Option<+T> = None | Some(value: T)

  datatype Result<+T, +E> = Success(value: T) | Failure(error: E)
}
